=== FILE: README.md ===
# Quotes generator: a Dafny model of the fetch, fallback and favorites logic

This project models the decision logic of the `QuotesGenerator` React
component (`my-quotes/src/components/QuotesGenerator.jsx`), a widget that
shows a random quote from the Quotable API. It falls back to a built-in pool
of five quotes when the API cannot be reached, searches by keyword, and keeps
a favorites list.

The component fetches through `fetchFromAPI`. That function tries three
approaches in a fixed order and returns the first success:

1. the URL from `getApiUrl` (the dev server path `/api…` in development,
   the API origin otherwise);
2. the API origin directly, with CORS mode and JSON headers;
3. the public CORS proxy.

If all three fail, it throws one error that quotes the last error's
message. `fetchRandom` replaces a failed fetch with a quote from the offline
pool, stored as the current quote beside an offline notice. `searchQuotes`
with an empty query is `fetchRandom()`. Otherwise it shows the API's first
result. When there is none, it stores as the current quote the first pool
quote whose content, author or a tag contains the query, ignoring case,
beside an offline-search notice.
`toggleFavorite` removes every favorite with the quote's id, or puts the
quote in front.

Network outcomes and the random draw are inputs. Each approach is given
as an `Exchange`: either a network failure, or a reply with status, status
text and the result of JSON parsing, where `None` stands for a `null`
body. `Math.random()` is a real number
`r` in `[0, 1)`. With these inputs every operation is a pure function. It
returns the view it leaves (quote, error, loading) and the requests it made.

Modules, one per file:

- `Results` (results.dfy): `Option` and `Result`.
- `Seqs` (seqs.dfy): order-preserving `Filter`, the model of `Array.filter`.
- `Text` (text.dfy): ASCII lower-casing, `includes`, decimal rendering.
- `Uri` (uri.dfy): `encodeURIComponent` (section 19.2.6.5 of ECMA-262, UTF-8
  per RFC 3629) and a decoder used to state round trips.
- `Quotes` (quotes.dfy): the quote record, the offline pool, the offline
  search filter, copy/tweet text and the favorites preview.
- `Api` (api.dfy): URL and endpoint builders, the approaches, the chain, and
  the development server's proxy rules.
- `Favorites` (favorites.dfy): `toggleFavorite`.
- `Generator` (generator.dfy): `fetchRandom` and `searchQuotes`.

In development, `getApiUrl` yields `/api/random…` and `/api/search/…`.
`vite.config.js` declares proxy rules only for `/api/zenquotes`,
`/api/quotable` and `/api/ninjas`. So the development server forwards the
primary approach's request nowhere (`Api.DevPrimaryIsNotForwarded`). In
development the primary request is answered by the development server
itself, not by the API.

The model follows what the component's code does. Several things one
might expect of such a widget are absent from it, and so from the model:

- There is no recent-history deduplication.
- There is no per-provider normalization; there is only one provider.
- The offline pool is a fixed list of five quotes.
- Search shows the first match, not a random one.
- When nothing matches offline, the search leaves the current quote in
  place and sets "No results found in offline quotes.". It does not fall
  back to a random quote.

## Model

| member | source | states |
|---|---|---|
| Seqs.Filter | my-quotes/src/components/QuotesGenerator.jsx:153-157 | `filter` keeps exactly the elements satisfying the predicate, each as often as in the input, in the input's order (a subsequence), and drops something whenever some element fails the predicate |
| Seqs.FilterHeadIsFirst | my-quotes/src/components/QuotesGenerator.jsx:159-160 | the first element kept is the earliest element of the input that satisfies the predicate |
| Seqs.FilterEmptyMeansNone | my-quotes/src/components/QuotesGenerator.jsx:159-163 | an empty filter result means no element satisfies the predicate |
| Seqs.FilterAllKept | my-quotes/src/components/QuotesGenerator.jsx:198 | filtering with a predicate every element satisfies returns the input unchanged |
| Text.Includes | my-quotes/src/components/QuotesGenerator.jsx:154-156 | `includes` holds exactly when some position starts an occurrence of the needle |
| Text.DecimalRoundTrip | my-quotes/src/components/QuotesGenerator.jsx:71 | the decimal rendering of a status code reads back as the same number |
| Uri.Encode | my-quotes/src/components/QuotesGenerator.jsx:122 | `encodeURIComponent` output uses only unreserved characters, `%` and upper-case hex digits, and is never shorter than its input |
| Uri.EncodeKeepsUnreserved | my-quotes/src/components/QuotesGenerator.jsx:145 | a text made only of unreserved characters is its own encoding |
| Uri.DecodeEncode | my-quotes/src/components/QuotesGenerator.jsx:92 | decoding an encoded component gives back exactly the original text, including non-ASCII characters |
| Uri.EncodeInjective | my-quotes/src/components/QuotesGenerator.jsx:222 | distinct texts have distinct encodings |
| Quotes.OfflineMatches | my-quotes/src/components/QuotesGenerator.jsx:153-157 | the offline filter returns exactly the pool quotes matching the query (content, author or some tag contains it, ignoring case), each as often as in the pool, in pool order |
| Quotes.OfflineFirstMatch | my-quotes/src/components/QuotesGenerator.jsx:159-163 | the offline match stored as the current quote is the earliest matching pool entry; no match means no entry matches |
| Quotes.ShareText | my-quotes/src/components/QuotesGenerator.jsx:221 | the copy/tweet text is the content in double quotes, then `" — "`, then the author, at fixed positions |
| Quotes.TweetTextRecoverable | my-quotes/src/components/QuotesGenerator.jsx:220-223 | the tweet URL's `text` parameter decodes to exactly the share text |
| Quotes.Preview | my-quotes/src/components/QuotesGenerator.jsx:356 | content of at most 120 characters is shown whole; longer content shows its first 120 characters and `...`; never more than 123 characters |
| Api.ApiUrl | my-quotes/src/components/QuotesGenerator.jsx:53-61 | the URL ends with the endpoint; it is prefixed by `/api` exactly in development, and by `https://api.quotable.io` otherwise |
| Api.RandomEndpointCarriesTag | my-quotes/src/components/QuotesGenerator.jsx:121-123 | the random endpoint is `/random` with no `tags` parameter for an empty tag, and otherwise carries a `tags` parameter that decodes to the tag |
| Api.SearchEndpointCarriesQuery | my-quotes/src/components/QuotesGenerator.jsx:145 | the search endpoint's `query` parameter, read up to the next `&`, decodes to the query |
| Api.Requests | my-quotes/src/components/QuotesGenerator.jsx:65-98 | there are three approaches: primary, direct and CORS proxy, in that order; the primary fetches `getApiUrl(endpoint)`, the direct one the production URL `https://api.quotable.io` + endpoint, and the proxy `https://corsproxy.io/?` followed by the encoded direct URL |
| Api.ApproachesTargetOneUrl | my-quotes/src/components/QuotesGenerator.jsx:66-92 | primary and direct request the same URL exactly outside development; the CORS proxy's query decodes to the direct URL |
| Api.Attempt | my-quotes/src/components/QuotesGenerator.jsx:70-72 | an approach succeeds exactly on a 2xx reply whose body parses, returning that body; a network failure rethrows its error; a non-2xx reply fails with a message starting `HTTP ` |
| Api.HttpErrorNamesStatus | my-quotes/src/components/QuotesGenerator.jsx:71 | the digits after `HTTP ` in the error message denote the status code |
| Api.LastErrorText | my-quotes/src/components/QuotesGenerator.jsx:113 | the aggregated message never ends in an empty error text: a missing or empty last message becomes `Unknown error` |
| Api.ChainFrom | my-quotes/src/components/QuotesGenerator.jsx:100-111 | from approach i on, the loop returns the first success and stops there, all earlier approaches having failed; or it tries every remaining approach, all fail, and it reports the last one's message |
| Api.Chain | my-quotes/src/components/QuotesGenerator.jsx:100-113 | the chain succeeds iff some approach succeeds; it returns the first success and tries nothing after it; on exhaustion it tried all, and the error embeds the last approach's message |
| Api.ChainFromIgnoresUntried | my-quotes/src/components/QuotesGenerator.jsx:101-105 | approaches after the first success do not influence the outcome |
| Api.FetchFromApi | my-quotes/src/components/QuotesGenerator.jsx:64-114 | the same first-success / exhaustion contract stated over the approaches' network exchanges |
| Api.Forward | my-quotes/vite.config.js:9-28 | the dev server forwards a path iff it starts with some rule's prefix |
| Api.DevPrimaryIsNotForwarded | my-quotes/src/components/QuotesGenerator.jsx:54-56 | in development the primary URLs for random and search match none of the dev server's proxy prefixes |
| Api.QuotablePrefixForwardsToDirect | my-quotes/vite.config.js:16-21 | a path under `/api/quotable` is forwarded to exactly the direct API URL |
| Favorites.RemoveId | my-quotes/src/components/QuotesGenerator.jsx:198 | removal drops every entry with the id and keeps all others, as often as before and in order |
| Favorites.Toggle | my-quotes/src/components/QuotesGenerator.jsx:195-202 | toggling flips whether the quote's id is listed and leaves every other id's membership unchanged; when absent the quote is prepended; when present the list shortens and is exactly the removal of that id, which keeps every other entry unchanged and in order |
| Favorites.ToggleTwiceRestores | my-quotes/src/components/QuotesGenerator.jsx:195-202 | toggling an absent quote twice restores the original list |
| Favorites.ToggleKeepsIdsUnique | my-quotes/src/components/QuotesGenerator.jsx:195-202 | a list without duplicate ids keeps that property under toggling |
| Favorites.RemoveIdKeepsUnique | my-quotes/src/components/QuotesGenerator.jsx:198 | removal preserves uniqueness of ids |
| Generator.RandomIndex | my-quotes/src/components/QuotesGenerator.jsx:131 | `floor(r * n)` for r in [0, 1) is a valid index below n |
| Generator.FetchRandom | my-quotes/src/components/QuotesGenerator.jsx:117-137 | loading ends and a current quote is stored; with a first successful approach k, k+1 requests were made, and a non-null body becomes the current quote with the error cleared; a `null` body (which makes `data.author` throw into the catch) and a failed chain both store pool entry floor(5r) as the current quote and set the offline notice; when every approach fails all three requests were made |
| Generator.FetchRandomFallsBackToPool | my-quotes/src/components/QuotesGenerator.jsx:124-133 | when every approach fails, or the first success has a `null` body, the quote is an entry of the offline pool and the offline notice is set |
| Generator.OfflineSearch | my-quotes/src/components/QuotesGenerator.jsx:153-164 | with a match, the earliest matching pool quote is stored as the current quote and the offline-search notice is set; without one, the current quote is kept and the no-results message is set |
| Generator.SearchView | my-quotes/src/components/QuotesGenerator.jsx:147-181 | a result with a truthy count and a non-empty list shows its first result and clears the error; every other outcome, the `else` branch and the catch branch alike, leaves the view of the offline search |
| Generator.SearchApi | my-quotes/src/components/QuotesGenerator.jsx:142-183 | for a non-empty query: the requests are a non-empty prefix of the three search requests, k+1 of them for a first success at approach k and all three when every approach fails; a body with a truthy count and a non-empty result list from the first successful approach shows its first result with no error; a body without results, a `null` body and a failed chain all lead to the same offline search |
| Generator.SearchQuotes | my-quotes/src/components/QuotesGenerator.jsx:140-184 | loading ends; an empty query is exactly `fetchRandom()`; a non-empty query makes k+1 search requests for a first success at k (all three when every approach fails) and shows the API's first result, or falls back to the offline search when the API has no results, answers `null` or every approach fails |

## Left out

- React state, hooks, effects and JSX: each operation is a function from
  one view to the next. The page shows a pending error in preference to the
  quote (lines 250-257), so an offline quote is stored but hidden behind its
  notice. That rendering choice is not modelled.
- Overlapping calls: each fetch or search is modelled as running alone,
  from one finished view to the next. The search box's Enter handler
  (lines 310-312) has no `disabled={loading}` guard, unlike the buttons
  (lines 241, 317), so a search can start while the mount-time
  `fetchRandom()` (line 188) or an earlier search is still pending. The two
  calls then interleave their `setQuote`, `setError` and `setLoading`
  updates: the first to finish clears `loading`, and the last to finish
  decides the view. That interleaving is not modelled.
- The intermediate `loading = true` render while a request is pending: only
  the state after the operation finishes is modelled.
- `fetch`, `res.json()`, CORS mode and headers: network I/O. Each approach's
  exchange is an input. `Response.ok` is taken as a 2xx status.
- `Math.random` floating point (lines 131, 341): the draw is an exact real
  in [0, 1).
- `localStorage` load, save and clear, and the JSON parse guard (lines 9-16,
  191-193, 332): persistence I/O.
- The "Random Favorite" and "Open" buttons (lines 341, 362): they only set
  the shown quote. They are not part of the fetch/search/toggle logic.
- Clipboard, `document.execCommand`, `window.open` and console logging:
  browser side effects. The text handed to them is modelled.
- `toggleFavorite` tests membership in the rendered `favorites` and updates
  the pending state `s`. The model treats the two as the same list, which
  holds when toggles do not overlap within one render.
- Text.Lower: lower-cases ASCII letters only. JavaScript's `toLowerCase`
  also maps non-ASCII letters, so the model's offline search is
  case-insensitive for ASCII only.
- Quotes.Preview: counts Unicode code points. JavaScript's `length` and
  `slice` count UTF-16 code units, so texts with characters outside the
  Basic Multilingual Plane are cut at a different point.
- Generator.SearchQuotes: a `null` body makes `data.count` throw into the
  catch branch, and is modelled. Any other non-object body (a number, string
  or boolean) has no truthy `count` and takes the `else` branch (line 151); the
  model's search data is always an object, which behaves the same as one
  without `count`. Both branches run the same offline search.
- Generator.FetchRandom: a non-null body is taken to be a quote record. A
  number, string or boolean body would be stored as the quote without an
  error, because reading `data.author` of it does not throw; the model
  cannot express such a body.
- Uri.Encode: `encodeURIComponent` throws `URIError` on a lone surrogate,
  and `fetchRandom` and `searchQuotes` would then fall back having made no
  request. A Dafny `string` holds Unicode scalar values only, so a lone
  surrogate cannot occur in the model's tags or queries.
- Uri.Decode is a reference decoder used to state round trips. The
  component never decodes, so its exact error behaviour is not modelled.
- The rewrite functions of the dev-server proxy are modelled as prefix
  strips; the rest of `vite.config.js` (plugins, `changeOrigin`, `secure`)
  is transport configuration.

=== FILE: api.dfy ===
/** `fetchFromAPI` and the URLs it requests: the base-URL choice, the
    endpoints the component builds, the three approaches tried in order, and
    the chain that returns the first approach's success or one aggregated
    error. Each approach's network exchange is an input, so the chain is a
    pure fold over the sequence of outcomes. */
module Api {
  import opened Results
  import opened Text
  import Uri

  const QuotableBase := "https://api.quotable.io"
  const DevBase := "/api"
  const CorsProxyBase := "https://corsproxy.io/?"

  /** `getApiUrl(endpoint)`: the development server's relative path in
      development, the API's own origin otherwise. */
  function ApiUrl(dev: bool, endpoint: string): (url: string)
    ensures |url| >= |endpoint| && url[|url| - |endpoint|..] == endpoint
    ensures dev <==> url[..|url| - |endpoint|] == DevBase
    ensures !dev ==> url[..|url| - |endpoint|] == QuotableBase
  {
    if dev then DevBase + endpoint else QuotableBase + endpoint
  }

  const RandomPath := "/random"
  const TagsQuery := "/random?tags="

  /** The endpoint `fetchRandom` requests: `/random`, narrowed to a tag when
      the tag is non-empty (an empty tag is falsy and means no tag). */
  function RandomEndpoint(tag: string): string {
    if tag == "" then RandomPath else TagsQuery + Uri.Encode(tag)
  }

  /** The tag a random endpoint asks for, read back as a server would. */
  function TagOf(endpoint: string): Option<string> {
    if |TagsQuery| <= |endpoint| && endpoint[..|TagsQuery|] == TagsQuery then
      Uri.Decode(endpoint[|TagsQuery|..])
    else None
  }

  /** The random endpoint carries a `tags` parameter exactly when a tag was
      given, and that parameter decodes to the tag. */
  lemma RandomEndpointCarriesTag(tag: string)
    ensures tag == "" ==> RandomEndpoint(tag) == RandomPath && TagOf(RandomEndpoint(tag)) == None
    ensures tag != "" ==> TagOf(RandomEndpoint(tag)) == Some(tag)
  {
    if tag != "" {
      var e := RandomEndpoint(tag);
      assert e[..|TagsQuery|] == TagsQuery;
      assert e[|TagsQuery|..] == Uri.Encode(tag);
      Uri.DecodeEncode(tag);
    }
  }

  const SearchQuery := "/search/quotes?query="
  const SearchLimit := "&limit=1"

  /** The endpoint `searchQuotes` requests: the encoded query, one result. */
  function SearchEndpoint(query: string): string {
    SearchQuery + Uri.Encode(query) + SearchLimit
  }

  /** The longest prefix of `s` without `&`. */
  function UpToAmpersand(s: string): (p: string)
    ensures |p| <= |s| && p == s[..|p|]
    ensures forall i :: 0 <= i < |p| ==> p[i] != '&'
    ensures |p| < |s| ==> s[|p|] == '&'
    decreases |s|
  {
    if |s| == 0 || s[0] == '&' then [] else [s[0]] + UpToAmpersand(s[1..])
  }

  /** The `query` parameter of a search endpoint, read back as a server
      would: everything after `?query=` up to the next `&`, decoded. */
  function SearchQueryOf(endpoint: string): Option<string> {
    if |SearchQuery| <= |endpoint| && endpoint[..|SearchQuery|] == SearchQuery then
      Uri.Decode(UpToAmpersand(endpoint[|SearchQuery|..]))
    else None
  }

  /** A string without `&` is read up to the `&` that follows it. */
  lemma {:induction false} UpToAmpersandStopsAt(a: string, b: string)
    requires forall i :: 0 <= i < |a| ==> a[i] != '&'
    requires |b| > 0 && b[0] == '&'
    ensures UpToAmpersand(a + b) == a
    decreases |a|
  {
    if |a| > 0 {
      assert (a + b)[1..] == a[1..] + b;
      UpToAmpersandStopsAt(a[1..], b);
      assert a == [a[0]] + a[1..];
    } else {
      assert a + b == b;
    }
  }

  /** The search endpoint's `query` parameter decodes to the query: the
      encoding contains no `&`, so the `limit` parameter cannot swallow or
      split it. */
  lemma SearchEndpointCarriesQuery(query: string)
    ensures SearchQueryOf(SearchEndpoint(query)) == Some(query)
  {
    var enc := Uri.Encode(query);
    var e := SearchEndpoint(query);
    assert e[..|SearchQuery|] == SearchQuery;
    assert e[|SearchQuery|..] == enc + SearchLimit;
    assert forall i :: 0 <= i < |enc| ==> enc[i] != '&' by {
      forall i | 0 <= i < |enc| ensures enc[i] != '&' {
        assert Uri.EncodedAlphabet(enc[i]);
      }
    }
    UpToAmpersandStopsAt(enc, SearchLimit);
    Uri.DecodeEncode(query);
  }

  // ---------------------------------------------------------------------
  // The three approaches

  /** How a request is made: through `getApiUrl`, directly with CORS mode and
      JSON headers, or through the public CORS proxy. */
  datatype Approach = Primary | Direct | CorsProxy

  datatype Request = Request(approach: Approach, url: string)

  const ApproachCount := 3

  function DirectUrl(endpoint: string): string {
    QuotableBase + endpoint
  }

  /** The CORS proxy receives the whole direct URL, encoded, as its query. */
  function CorsProxyUrl(endpoint: string): string {
    CorsProxyBase + Uri.Encode(DirectUrl(endpoint))
  }

  /** The requests the three approaches make for `endpoint`, in the order
      they are tried. */
  function Requests(dev: bool, endpoint: string): (rs: seq<Request>)
    ensures |rs| == ApproachCount
    ensures rs[0].approach == Primary && rs[1].approach == Direct && rs[2].approach == CorsProxy
    ensures rs[0].url == ApiUrl(dev, endpoint) && rs[1].url == ApiUrl(false, endpoint)
    ensures rs[2].url == CorsProxyBase + Uri.Encode(rs[1].url)
  {
    [Request(Primary, ApiUrl(dev, endpoint)),
     Request(Direct, DirectUrl(endpoint)),
     Request(CorsProxy, CorsProxyUrl(endpoint))]
  }

  /** Outside development the primary and the direct approach request the
      same URL (they differ only in fetch options); in development they
      differ. Outside development all three reach the same API URL; in
      development the primary request is answered by the development server
      (`DevPrimaryIsNotForwarded`). */
  lemma ApproachesTargetOneUrl(dev: bool, endpoint: string)
    ensures !dev <==> Requests(dev, endpoint)[0].url == Requests(dev, endpoint)[1].url
    ensures Uri.Decode(Requests(dev, endpoint)[2].url[|CorsProxyBase|..]) == Some(Requests(dev, endpoint)[1].url)
  {
    var rs := Requests(dev, endpoint);
    if dev {
      assert rs[0].url[1] == 'a' != rs[1].url[1];
    }
    assert rs[2].url[|CorsProxyBase|..] == Uri.Encode(DirectUrl(endpoint));
    Uri.DecodeEncode(DirectUrl(endpoint));
  }

  /** What one approach's `fetch` produced: a network-level failure (the
      promise rejects), or a response with its status, status text and the
      outcome of parsing its body as JSON. */
  datatype Exchange<T> =
    | NetworkFailure(reason: string)
    | Reply(status: nat, statusText: string, body: Result<T>)

  /** `Response.ok` (section 5 of the Fetch standard): a 2xx status. */
  predicate IsOkStatus(status: nat) {
    200 <= status <= 299
  }

  const HttpPrefix := "HTTP "

  function HttpError(status: nat, statusText: string): string {
    HttpPrefix + Decimal(status) + ": " + statusText
  }

  /** One approach: a failed fetch rethrows its error, a non-2xx response
      throws `HTTP <status>: <statusText>`, otherwise the parsed body is the
      result (a body that is not JSON throws the parser's error). */
  function Attempt<T>(x: Exchange<T>): (r: Result<T>)
    ensures r.Ok? <==> x.Reply? && IsOkStatus(x.status) && x.body.Ok?
    ensures r.Ok? ==> r.value == x.body.value
    ensures x.NetworkFailure? ==> r == Err(x.reason)
    ensures x.Reply? && !IsOkStatus(x.status) ==>
      r.Err? && |HttpPrefix| <= |r.message| && r.message[..|HttpPrefix|] == HttpPrefix
  {
    match x
    case NetworkFailure(reason) => Err(reason)
    case Reply(status, statusText, body) =>
      if !IsOkStatus(status) then Err(HttpError(status, statusText)) else body
  }

  /** The status code can be read back from an HTTP error message: the
      digits after `HTTP ` denote the status. */
  lemma HttpErrorNamesStatus(status: nat, statusText: string)
    ensures var m := HttpError(status, statusText);
      var digits := m[|HttpPrefix|..|HttpPrefix| + |Decimal(status)|];
      (forall i :: 0 <= i < |digits| ==> IsDigit(digits[i])) && DecimalValue(digits) == status
  {
    var m := HttpError(status, statusText);
    assert m[|HttpPrefix|..|HttpPrefix| + |Decimal(status)|] == Decimal(status);
    DecimalRoundTrip(status);
  }

  // ---------------------------------------------------------------------
  // The chain

  /** The chain's outcome and how many approaches it tried. */
  datatype Run<T> = Run(result: Result<T>, tried: nat)

  const AllFailedPrefix := "All API approaches failed. Last error: "
  const UnknownError := "Unknown error"

  /** `lastError?.message || 'Unknown error'`. */
  function LastErrorText(lastError: Option<string>): (t: string)
    ensures t != ""
    ensures lastError.Some? && lastError.value != "" ==> t == lastError.value
    ensures lastError.None? || lastError.value == "" ==> t == UnknownError
  {
    match lastError
    case Some(m) => if m == "" then UnknownError else m
    case None => UnknownError
  }

  /** The loop of `fetchFromAPI` from approach `i` on, with `lastError` the
      error of the approach tried last. */
  function ChainFrom<T>(outcomes: seq<Result<T>>, i: nat, lastError: Option<string>): (run: Run<T>)
    requires i <= |outcomes|
    ensures i <= run.tried <= |outcomes|
    ensures run.result.Ok? ==>
      i < run.tried && run.result == outcomes[run.tried - 1]
      && forall j :: i <= j < run.tried - 1 ==> outcomes[j].Err?
    ensures run.result.Err? ==>
      run.tried == |outcomes|
      && (forall j :: i <= j < |outcomes| ==> outcomes[j].Err?)
      && run.result.message == AllFailedPrefix + LastErrorText(
           if i < |outcomes| then Some(outcomes[|outcomes| - 1].message) else lastError)
    decreases |outcomes| - i
  {
    if i == |outcomes| then
      Run(Err(AllFailedPrefix + LastErrorText(lastError)), i)
    else
      match outcomes[i]
      case Ok(v) => Run(Ok(v), i + 1)
      case Err(m) => ChainFrom(outcomes, i + 1, Some(m))
  }

  /** `fetchFromAPI`: try the approaches' outcomes in order. */
  function Chain<T>(outcomes: seq<Result<T>>): (run: Run<T>)
    ensures run.tried <= |outcomes|
    ensures run.result.Ok? <==> exists j :: 0 <= j < |outcomes| && outcomes[j].Ok?
    ensures run.result.Ok? ==>
      0 < run.tried && run.result == outcomes[run.tried - 1]
      && forall j :: 0 <= j < run.tried - 1 ==> outcomes[j].Err?
    ensures run.result.Err? ==>
      run.tried == |outcomes|
      && run.result.message == AllFailedPrefix + LastErrorText(
           if |outcomes| > 0 then Some(outcomes[|outcomes| - 1].message) else None)
  {
    ChainFrom(outcomes, 0, None)
  }

  /** Only the approaches the chain tried matter: approaches after the first
      success may report anything without changing the outcome. */
  lemma {:induction false} ChainFromIgnoresUntried<T>(a: seq<Result<T>>, b: seq<Result<T>>, i: nat, lastError: Option<string>)
    requires i <= |a| && |a| == |b|
    requires a[..ChainFrom(a, i, lastError).tried] == b[..ChainFrom(a, i, lastError).tried]
    ensures ChainFrom(b, i, lastError) == ChainFrom(a, i, lastError)
    decreases |a| - i
  {
    var t := ChainFrom(a, i, lastError).tried;
    if i < |a| {
      assert a[i] == a[..t][i] == b[..t][i] == b[i];
      if a[i].Err? {
        ChainFromIgnoresUntried(a, b, i + 1, Some(a[i].message));
      }
    }
  }

  /** `fetchFromAPI(endpoint)` given what each approach's exchange
      produced. */
  function FetchFromApi<T>(exchanges: seq<Exchange<T>>): (run: Run<T>)
    ensures run.tried <= |exchanges|
    ensures run.result.Ok? <==> exists j :: 0 <= j < |exchanges| && Attempt(exchanges[j]).Ok?
    ensures run.result.Ok? ==>
      0 < run.tried && run.result == Attempt(exchanges[run.tried - 1])
      && forall j :: 0 <= j < run.tried - 1 ==> Attempt(exchanges[j]).Err?
    ensures run.result.Err? ==>
      run.tried == |exchanges|
      && run.result.message == AllFailedPrefix + LastErrorText(
           if |exchanges| > 0 then Some(Attempt(exchanges[|exchanges| - 1]).message) else None)
  {
    var outcomes := seq(|exchanges|, j requires 0 <= j < |exchanges| => Attempt(exchanges[j]));
    assert forall j :: 0 <= j < |exchanges| ==> outcomes[j] == Attempt(exchanges[j]);
    Chain(outcomes)
  }

  // ---------------------------------------------------------------------
  // The development server's proxy

  /** A proxy rule of the development server: requests whose path starts
      with `prefix` are forwarded to `target` with the prefix stripped. */
  datatype ProxyRule = ProxyRule(prefix: string, target: string)

  const DevProxyRules := [
    ProxyRule("/api/zenquotes", "https://zenquotes.io/api"),
    ProxyRule("/api/quotable", QuotableBase),
    ProxyRule("/api/ninjas", "https://api.api-ninjas.com/v1")
  ]

  /** Where the development server forwards `path`, if any rule applies. */
  function Forward(rules: seq<ProxyRule>, path: string): (r: Option<string>)
    ensures r.None? <==> forall k :: 0 <= k < |rules| ==>
      !(|rules[k].prefix| <= |path| && path[..|rules[k].prefix|] == rules[k].prefix)
    decreases |rules|
  {
    if |rules| == 0 then None
    else
      var rule := rules[0];
      if |rule.prefix| <= |path| && path[..|rule.prefix|] == rule.prefix then
        Some(rule.target + path[|rule.prefix|..])
      else
        var rest := Forward(rules[1..], path);
        assert forall k :: 1 <= k < |rules| ==> rules[k] == rules[1..][k - 1];
        rest
  }

  /** A string that differs from `p` at index `i` does not start with `p`. */
  lemma NotPrefixAt(p: string, s: string, i: nat)
    requires i < |p| && i < |s| && p[i] != s[i]
    ensures !(|p| <= |s| && s[..|p|] == p)
  {
  }

  /** A development URL whose endpoint does not continue with `z`, `q` or
      `n` after its leading `/` starts with none of the proxy prefixes. */
  lemma DevUrlNotForwarded(endpoint: string)
    requires |endpoint| > 1 && endpoint[0] == '/'
    requires endpoint[1] != 'z' && endpoint[1] != 'q' && endpoint[1] != 'n'
    ensures Forward(DevProxyRules, ApiUrl(true, endpoint)) == None
  {
    var u := ApiUrl(true, endpoint);
    assert u[5] == endpoint[1];
    var rules := DevProxyRules;
    NotPrefixAt(rules[0].prefix, u, 5);
    NotPrefixAt(rules[1].prefix, u, 5);
    NotPrefixAt(rules[2].prefix, u, 5);
  }

  /** In development the primary approach requests `/api/random...` or
      `/api/search/...`, which starts with none of the proxy prefixes: the
      development server forwards it nowhere. */
  lemma DevPrimaryIsNotForwarded(tag: string, query: string)
    ensures Forward(DevProxyRules, ApiUrl(true, RandomEndpoint(tag))) == None
    ensures Forward(DevProxyRules, ApiUrl(true, SearchEndpoint(query))) == None
  {
    var e := RandomEndpoint(tag);
    assert e[0] == '/' && e[1] == 'r';
    DevUrlNotForwarded(e);
    var f := SearchEndpoint(query);
    assert f[0] == '/' && f[1] == 's';
    DevUrlNotForwarded(f);
  }

  /** A primary URL under `/api/quotable` would have been forwarded to
      exactly the direct URL. */
  lemma QuotablePrefixForwardsToDirect(endpoint: string)
    ensures Forward(DevProxyRules, "/api/quotable" + endpoint) == Some(DirectUrl(endpoint))
  {
    var path := "/api/quotable" + endpoint;
    assert path[5] == 'q';
    NotPrefixAt(DevProxyRules[0].prefix, path, 5);
    assert path[..|"/api/quotable"|] == "/api/quotable";
    assert path[|"/api/quotable"|..] == endpoint;
  }
}

=== FILE: favorites.dfy ===
/** The favorites list and `toggleFavorite`: a list of quotes keyed by id,
    where toggling removes every entry with the quote's id if there is one
    and otherwise puts the quote in front. */
module Favorites {
  import opened Quotes
  import Seqs

  /** `favorites.find((f) => f._id === id)` finds an entry. This is also
      what decides whether the button reads "Unfavorite" or "Favorite". */
  predicate HasId(favs: seq<Quote>, id: string) {
    exists i :: 0 <= i < |favs| && favs[i].id == id
  }

  /** No two entries share an id. */
  predicate UniqueIds(favs: seq<Quote>) {
    forall i, j :: 0 <= i < j < |favs| ==> favs[i].id != favs[j].id
  }

  /** `s.filter((f) => f._id !== id)`: every entry with `id` is gone; every
      other entry stays, as often as before and in the same relative
      order. */
  function RemoveId(favs: seq<Quote>, id: string): (r: seq<Quote>)
    ensures !HasId(r, id)
    ensures Seqs.IsSubsequence(r, favs)
    ensures forall f: Quote :: f.id != id ==> multiset(r)[f] == multiset(favs)[f]
    ensures forall f: Quote :: f in r ==> f in favs
  {
    var r := Seqs.Filter(favs, (f: Quote) => f.id != id);
    forall f | f in r ensures f in favs {
      assert multiset(r)[f] > 0;
    }
    r
  }

  /** Removing one id leaves every other id exactly as listed as before. */
  lemma RemoveIdKeepsOtherIds(favs: seq<Quote>, id: string, other: string)
    requires other != id
    ensures HasId(RemoveId(favs, id), other) <==> HasId(favs, other)
  {
    var r := RemoveId(favs, id);
    if HasId(favs, other) {
      var i :| 0 <= i < |favs| && favs[i].id == other;
      assert multiset(favs)[favs[i]] > 0;
      assert favs[i] in r;
    }
    if HasId(r, other) {
      var i :| 0 <= i < |r| && r[i].id == other;
      assert r[i] in favs;
    }
  }

  /** Removing an id that is listed shortens the list. */
  lemma RemoveListedIdShrinks(favs: seq<Quote>, id: string)
    requires HasId(favs, id)
    ensures |RemoveId(favs, id)| < |favs|
  {
    var i :| 0 <= i < |favs| && favs[i].id == id;
    assert !((f: Quote) => f.id != id)(favs[i]);
  }

  /** Putting `q` in front leaves every other id exactly as listed as
      before. */
  lemma PrependKeepsOtherIds(favs: seq<Quote>, q: Quote, other: string)
    requires other != q.id
    ensures HasId([q] + favs, other) <==> HasId(favs, other)
  {
    var r := [q] + favs;
    if HasId(r, other) {
      var i :| 0 <= i < |r| && r[i].id == other;
      assert favs[i - 1].id == other;
    }
    if HasId(favs, other) {
      var i :| 0 <= i < |favs| && favs[i].id == other;
      assert r[i + 1].id == other;
    }
  }

  /** `toggleFavorite(q)`: the quote's id changes from listed to unlisted or
      back, and whether any other id is listed does not change. Removal is
      `RemoveId`, so the other entries stay as they were and in order. */
  function Toggle(favs: seq<Quote>, q: Quote): (r: seq<Quote>)
    ensures HasId(r, q.id) <==> !HasId(favs, q.id)
    ensures forall id :: id != q.id ==> (HasId(r, id) <==> HasId(favs, id))
    ensures !HasId(favs, q.id) ==> |r| == |favs| + 1 && r[0] == q && r[1..] == favs
    ensures HasId(favs, q.id) ==> |r| < |favs| && r == RemoveId(favs, q.id)
  {
    if HasId(favs, q.id) then
      var r := RemoveId(favs, q.id);
      forall id | id != q.id ensures HasId(r, id) <==> HasId(favs, id) {
        RemoveIdKeepsOtherIds(favs, q.id, id);
      }
      RemoveListedIdShrinks(favs, q.id);
      r
    else
      var r := [q] + favs;
      assert r[0].id == q.id;
      forall id | id != q.id ensures HasId(r, id) <==> HasId(favs, id) {
        PrependKeepsOtherIds(favs, q, id);
      }
      r
  }

  /** Removing an id that is not listed changes nothing. */
  lemma RemoveAbsentId(favs: seq<Quote>, id: string)
    requires !HasId(favs, id)
    ensures RemoveId(favs, id) == favs
  {
    Seqs.FilterAllKept(favs, (f: Quote) => f.id != id);
  }

  /** Toggling a quote that is not a favorite, then toggling it again,
      restores the original list. */
  lemma ToggleTwiceRestores(favs: seq<Quote>, q: Quote)
    requires !HasId(favs, q.id)
    ensures Toggle(Toggle(favs, q), q) == favs
  {
    var added := Toggle(favs, q);
    assert added == [q] + favs;
    assert added[1..] == favs;
    RemoveAbsentId(favs, q.id);
  }

  /** Toggling keeps ids unique: the button can never create a duplicate. */
  lemma {:induction false} ToggleKeepsIdsUnique(favs: seq<Quote>, q: Quote)
    requires UniqueIds(favs)
    ensures UniqueIds(Toggle(favs, q))
  {
    var r := Toggle(favs, q);
    if HasId(favs, q.id) {
      RemoveIdKeepsUnique(favs, q.id);
    } else {
      forall i, j | 0 <= i < j < |r| ensures r[i].id != r[j].id {
        if i == 0 {
          assert r[j] == favs[j - 1];
        } else {
          assert r[i] == favs[i - 1] && r[j] == favs[j - 1];
        }
      }
    }
  }

  lemma {:induction false} RemoveIdKeepsUnique(favs: seq<Quote>, id: string)
    requires UniqueIds(favs)
    ensures UniqueIds(RemoveId(favs, id))
    decreases |favs|
  {
    if |favs| > 0 {
      var tail := favs[1..];
      assert UniqueIds(tail) by {
        forall i, j | 0 <= i < j < |tail| ensures tail[i].id != tail[j].id {
          assert tail[i] == favs[i + 1] && tail[j] == favs[j + 1];
        }
      }
      RemoveIdKeepsUnique(tail, id);
      var rest := RemoveId(tail, id);
      if favs[0].id != id {
        var r := RemoveId(favs, id);
        assert r == [favs[0]] + rest;
        forall i, j | 0 <= i < j < |r| ensures r[i].id != r[j].id {
          if i == 0 {
            assert r[j] == rest[j - 1];
            assert rest[j - 1] in tail;
            var k :| 0 <= k < |tail| && tail[k] == rest[j - 1];
            assert favs[k + 1] == tail[k];
          } else {
            assert r[i] == rest[i - 1] && r[j] == rest[j - 1];
          }
        }
      } else {
        assert RemoveId(favs, id) == rest;
      }
    }
  }
}

=== FILE: generator.dfy ===
/** The component's state transitions: `fetchRandom` and `searchQuotes` as
    pure functions from the current view, the network outcomes of each
    approach and the random draw to the view they leave behind and the
    requests they made. */
module Generator {
  import opened Results
  import opened Quotes
  import opened Api

  /** The part of the component's state the two operations change. */
  datatype View = View(quote: Option<Quote>, error: Option<string>, loading: bool)

  /** A finished operation: the view it leaves and the requests it made, in
      order. */
  datatype Step = Step(view: View, requests: seq<Request>)

  const OfflineNotice := "Using offline quote (API temporarily unavailable)"
  const OfflineSearchNotice := "Using offline search results (API temporarily unavailable)"
  const NoResultsNotice := "No results found in offline quotes."

  /** The whole part of a non-negative real below `bound`. */
  function FloorBelow(x: real, bound: nat): (i: nat)
    requires 0.0 <= x < bound as real
    ensures i < bound
    ensures i as real <= x < i as real + 1.0
  {
    x.Floor
  }

  /** `Math.floor(r * n)` for a draw `r` of `Math.random()`: always a valid
      index into a list of `n` elements. */
  function RandomIndex(r: real, n: nat): (i: nat)
    requires 0.0 <= r < 1.0 && n > 0
    ensures i < n
    ensures i as real <= r * n as real < i as real + 1.0
  {
    ScaleBelow(r, n as real);
    FloorBelow(r * n as real, n)
  }

  /** A fraction in [0, 1) of a positive number lies in [0, that number). */
  lemma ScaleBelow(r: real, n: real)
    requires 0.0 <= r < 1.0 && n > 0.0
    ensures 0.0 <= r * n < n
  {
    assert n - r * n == (1.0 - r) * n;
  }

  /** Approach `k` is the first whose exchange yields a value. */
  predicate FirstSuccess<T>(replies: seq<Exchange<T>>, k: int) {
    && 0 <= k < |replies|
    && Attempt(replies[k]).Ok?
    && forall j :: 0 <= j < k ==> Attempt(replies[j]).Err?
  }

  /** The chain's run is described by its first success, if any. */
  lemma RunIsFirstSuccess<T>(replies: seq<Exchange<T>>)
    ensures FetchFromApi(replies).result.Ok? ==>
      FirstSuccess(replies, FetchFromApi(replies).tried - 1)
    ensures FetchFromApi(replies).result.Err? ==>
      forall k :: !FirstSuccess(replies, k)
  {
  }

  /** There is at most one first success. */
  lemma FirstSuccessUnique<T>(replies: seq<Exchange<T>>, k: int, k': int)
    requires FirstSuccess(replies, k) && FirstSuccess(replies, k')
    ensures k == k'
  {
  }

  /** A first success at `k` is what the chain returns, after `k + 1`
      requests. */
  lemma RunAtFirstSuccess<T>(replies: seq<Exchange<T>>, k: int)
    requires FirstSuccess(replies, k)
    ensures FetchFromApi(replies).result == Attempt(replies[k])
    ensures FetchFromApi(replies).tried == k + 1
  {
    RunIsFirstSuccess(replies);
    FirstSuccessUnique(replies, k, FetchFromApi(replies).tried - 1);
  }

  /** `fetchRandom(tag)`: the first approach's quote if any succeeds with a
      non-null body, else an entry of the offline pool with the offline
      notice. A body of `None` is JSON `null`: reading `data.author` of it
      throws into the same catch branch as a failed chain. Loading always
      ends, and a current quote is always stored (with an error set, the page
      renders the error in its place). */
  function FetchRandom(v: View, dev: bool, tag: string, replies: seq<Exchange<Option<Quote>>>, r: real): (s: Step)
    requires |replies| == ApproachCount
    requires 0.0 <= r < 1.0
    ensures !s.view.loading && s.view.quote.Some?
    ensures s.requests <= Requests(dev, RandomEndpoint(tag)) && |s.requests| > 0
    ensures forall k :: FirstSuccess(replies, k) ==> |s.requests| == k + 1
    ensures forall k :: FirstSuccess(replies, k) && Attempt(replies[k]).value.Some? ==>
      s.view == View(Attempt(replies[k]).value, None, false)
    ensures (forall k :: FirstSuccess(replies, k) ==> Attempt(replies[k]).value.None?) ==>
      s.view == View(Some(FallbackQuotes[RandomIndex(r, |FallbackQuotes|)]), Some(OfflineNotice), false)
    ensures (forall k :: !FirstSuccess(replies, k)) ==>
      s.requests == Requests(dev, RandomEndpoint(tag))
  {
    RunIsFirstSuccess(replies);
    var run := FetchFromApi(replies);
    var all := Requests(dev, RandomEndpoint(tag));
    var requests := all[..run.tried];
    assert requests <= all && |requests| > 0;
    var fallback := View(Some(FallbackQuotes[RandomIndex(r, |FallbackQuotes|)]), Some(OfflineNotice), false);
    assert forall k :: FirstSuccess(replies, k) ==> k == run.tried - 1 by {
      forall k | FirstSuccess(replies, k) ensures k == run.tried - 1 {
        FirstSuccessUnique(replies, k, run.tried - 1);
      }
    }
    match run.result
    case Ok(Some(data)) => Step(View(Some(data), None, false), requests)
    case Ok(None) => Step(fallback, requests)
    case Err(_) => Step(fallback, requests)
  }

  /** The fallback quote of `fetchRandom` is always an entry of the pool,
      whether every approach failed or the first success had a `null` body. */
  lemma FetchRandomFallsBackToPool(v: View, dev: bool, tag: string, replies: seq<Exchange<Option<Quote>>>, r: real)
    requires |replies| == ApproachCount && 0.0 <= r < 1.0
    requires forall k :: FirstSuccess(replies, k) ==> Attempt(replies[k]).value.None?
    ensures FetchRandom(v, dev, tag, replies, r).view.quote.value in FallbackQuotes
    ensures FetchRandom(v, dev, tag, replies, r).view.error == Some(OfflineNotice)
  {
    var i := RandomIndex(r, |FallbackQuotes|);
    assert FetchRandom(v, dev, tag, replies, r).view.quote == Some(FallbackQuotes[i]);
  }

  /** What the search endpoint answers: a count and a list of results, either
      of which may be missing from the JSON. */
  datatype SearchData = SearchData(count: Option<int>, results: Option<seq<Quote>>)

  /** `data.count && data.results && data.results.length > 0`. */
  predicate HasResults(d: SearchData) {
    d.count.Some? && d.count.value != 0 && d.results.Some? && |d.results.value| > 0
  }

  /** A search body, `None` being JSON `null`, that the component shows a
      result from. */
  predicate ReportsResults(body: Option<SearchData>) {
    body.Some? && HasResults(body.value)
  }

  /** The offline search over `pool`: the first quote matching the query,
      stored as the current quote with the offline-search notice; when none
      matches, the current quote stays and the "no results" message is set. */
  function OfflineSearch(pool: seq<Quote>, v: View, query: string): (w: View)
    ensures !w.loading
    ensures (exists k :: 0 <= k < |pool| && Matches(pool[k], query)) ==>
      && w.error == Some(OfflineSearchNotice)
      && exists k :: 0 <= k < |pool| && w.quote == Some(pool[k])
           && Matches(pool[k], query)
           && forall j :: 0 <= j < k ==> !Matches(pool[j], query)
    ensures (forall k :: 0 <= k < |pool| ==> !Matches(pool[k], query)) ==>
      w == View(v.quote, Some(NoResultsNotice), false)
  {
    var matches := OfflineMatches(pool, query);
    OfflineFirstMatch(pool, query);
    if |matches| > 0 then
      View(Some(matches[0]), Some(OfflineSearchNotice), false)
    else
      View(v.quote, Some(NoResultsNotice), false)
  }

  /** The view a non-empty search leaves, given the chain's result: its
      first result when the body reports results, otherwise the offline
      search, reached from the `else` branch for an answer without results
      and from the catch branch for a failed chain or a `null` body (reading
      `data.count` of `null` throws). */
  function SearchView(v: View, query: string, result: Result<Option<SearchData>>): (w: View)
    ensures result.Ok? && ReportsResults(result.value) ==>
      w == View(Some(result.value.value.results.value[0]), None, false)
    ensures !(result.Ok? && ReportsResults(result.value)) ==>
      w == OfflineSearch(FallbackQuotes, v, query)
  {
    match result
    case Ok(Some(d)) =>
      if HasResults(d) then View(Some(d.results.value[0]), None, false)
      else OfflineSearch(FallbackQuotes, v, query)
    case Ok(None) => OfflineSearch(FallbackQuotes, v, query)
    case Err(_) => OfflineSearch(FallbackQuotes, v, query)
  }

  /** `searchQuotes(query)` for a non-empty query: the first result of the
      first successful approach is shown when the API reports results; when
      the API reports none, answers `null`, or every approach fails, the
      offline search over the fallback pool decides the view. */
  function SearchApi(v: View, dev: bool, query: string, replies: seq<Exchange<Option<SearchData>>>): (s: Step)
    requires |replies| == ApproachCount
    ensures !s.view.loading
    ensures s.requests <= Requests(dev, SearchEndpoint(query)) && |s.requests| > 0
    ensures forall k :: FirstSuccess(replies, k) ==> |s.requests| == k + 1
    ensures (forall k :: !FirstSuccess(replies, k)) ==>
      s.requests == Requests(dev, SearchEndpoint(query))
    ensures forall k :: FirstSuccess(replies, k) && ReportsResults(Attempt(replies[k]).value) ==>
      s.view == View(Some(Attempt(replies[k]).value.value.results.value[0]), None, false)
    ensures (forall k :: FirstSuccess(replies, k) ==> !ReportsResults(Attempt(replies[k]).value)) ==>
      s.view == OfflineSearch(FallbackQuotes, v, query)
  {
    var run := FetchFromApi(replies);
    var all := Requests(dev, SearchEndpoint(query));
    var requests := all[..run.tried];
    assert requests <= all && |requests| > 0;
    var s := Step(SearchView(v, query, run.result), requests);
    assert forall k :: FirstSuccess(replies, k) ==> run.result == Attempt(replies[k]) && run.tried == k + 1 by {
      forall k | FirstSuccess(replies, k) ensures run.result == Attempt(replies[k]) && run.tried == k + 1 {
        RunAtFirstSuccess(replies, k);
      }
    }
    RunIsFirstSuccess(replies);
    s
  }

  /** `searchQuotes(query)`: an empty query is `fetchRandom()`; any other
      query goes to the search endpoint, with the offline search as its
      fallback. */
  function SearchQuotes(v: View, dev: bool, query: string,
                        randomReplies: seq<Exchange<Option<Quote>>>,
                        searchReplies: seq<Exchange<Option<SearchData>>>, r: real): (s: Step)
    requires |randomReplies| == ApproachCount && |searchReplies| == ApproachCount
    requires 0.0 <= r < 1.0
    ensures !s.view.loading
    ensures query == "" ==> s == FetchRandom(v, dev, "", randomReplies, r)
    ensures query != "" ==>
      s.requests <= Requests(dev, SearchEndpoint(query)) && |s.requests| > 0
    ensures query != "" ==> forall k :: FirstSuccess(searchReplies, k) ==> |s.requests| == k + 1
    ensures query != "" && (forall k :: !FirstSuccess(searchReplies, k)) ==>
      s.requests == Requests(dev, SearchEndpoint(query))
    ensures query != "" ==> forall k :: FirstSuccess(searchReplies, k) && ReportsResults(Attempt(searchReplies[k]).value) ==>
      s.view == View(Some(Attempt(searchReplies[k]).value.value.results.value[0]), None, false)
    ensures query != "" && (forall k :: FirstSuccess(searchReplies, k) ==> !ReportsResults(Attempt(searchReplies[k]).value)) ==>
      s.view == OfflineSearch(FallbackQuotes, v, query)
  {
    if query == "" then FetchRandom(v, dev, "", randomReplies, r)
    else SearchApi(v, dev, query, searchReplies)
  }
}

=== FILE: quotes.dfy ===
/** The quote record, the built-in offline pool, the offline search filter
    and the text the component derives from a quote (copy/tweet text and the
    shortened favorites preview). */
module Quotes {
  import opened Text
  import Seqs
  import Uri
  import opened Results

  /** A quote as the component handles it: the API's JSON object or an
      entry of the offline pool. */
  datatype Quote = Quote(id: string, content: string, author: string, tags: seq<string>)

  /** The five quotes shown when the API cannot be reached. */
  const FallbackQuotes: seq<Quote> := [
    Quote("fallback-1", "The only way to do great work is to love what you do.",
          "Steve Jobs", ["motivational", "work"]),
    Quote("fallback-2", "Innovation distinguishes between a leader and a follower.",
          "Steve Jobs", ["innovation", "leadership"]),
    Quote("fallback-3", "The future belongs to those who believe in the beauty of their dreams.",
          "Eleanor Roosevelt", ["dreams", "future"]),
    Quote("fallback-4", "It is during our darkest moments that we must focus to see the light.",
          "Aristotle", ["wisdom", "hope"]),
    Quote("fallback-5", "Success is not final, failure is not fatal: it is the courage to continue that counts.",
          "Winston Churchill", ["success", "courage"])
  ]

  /** The offline search predicate: the lower-cased query occurs in the
      lower-cased content, the lower-cased author or some lower-cased tag. */
  predicate Matches(q: Quote, query: string) {
    var needle := Lower(query);
    || Includes(Lower(q.content), needle)
    || Includes(Lower(q.author), needle)
    || exists i :: 0 <= i < |q.tags| && Includes(Lower(q.tags[i]), needle)
  }

  /** `fallbackQuotes.filter(...)`: the pool quotes matching `query`. */
  function OfflineMatches(pool: seq<Quote>, query: string): (r: seq<Quote>)
    ensures forall q :: q in r <==> q in pool && Matches(q, query)
    ensures forall q :: multiset(r)[q] == if Matches(q, query) then multiset(pool)[q] else 0
    ensures Seqs.IsSubsequence(r, pool)
  {
    var r := Seqs.Filter(pool, q => Matches(q, query));
    forall q ensures q in r <==> q in pool && Matches(q, query) {
      Seqs.FilterMembership(pool, q => Matches(q, query), q);
    }
    r
  }

  /** The quote the offline search stores is the earliest pool entry that
      matches; when none is found, no entry matches. */
  lemma OfflineFirstMatch(pool: seq<Quote>, query: string)
    ensures |OfflineMatches(pool, query)| == 0 ==>
      forall i :: 0 <= i < |pool| ==> !Matches(pool[i], query)
    ensures |OfflineMatches(pool, query)| > 0 ==>
      exists k :: 0 <= k < |pool| && OfflineMatches(pool, query)[0] == pool[k]
        && Matches(pool[k], query)
        && forall j :: 0 <= j < k ==> !Matches(pool[j], query)
  {
    var p := (q: Quote) => Matches(q, query);
    Seqs.FilterEmptyMeansNone(pool, p);
    if |OfflineMatches(pool, query)| > 0 {
      var k := Seqs.FilterHeadIsFirst(pool, p);
      assert OfflineMatches(pool, query)[0] == pool[k];
    }
  }

  /** Matching ignores the case of ASCII letters in the query. */
  lemma MatchesIgnoresQueryCase(q: Quote, query: string)
    ensures Matches(q, Lower(query)) <==> Matches(q, query)
  {
    LowerIdempotent(query);
  }

  /** The dash between a quote and its author. */
  const EmDash: char := '\U{2014}'

  /** The text copied to the clipboard and offered to Twitter: the content
      in double quotes, then an em dash and the author. */
  function ShareText(q: Quote): (t: string)
    ensures |t| == |q.content| + |q.author| + 5
    ensures t[0] == '"' && t[1..1 + |q.content|] == q.content
    ensures t[1 + |q.content|..5 + |q.content|] == ['"', ' ', EmDash, ' ']
    ensures t[|t| - |q.author|..] == q.author
  {
    ['"'] + q.content + ['"', ' ', EmDash, ' '] + q.author
  }

  const TweetIntent := "https://twitter.com/intent/tweet?text="

  /** The Twitter intent URL for a quote. */
  function TweetUrl(q: Quote): (url: string)
    ensures |TweetIntent| <= |url| && url[..|TweetIntent|] == TweetIntent
  {
    TweetIntent + Uri.Encode(ShareText(q))
  }

  /** The `text` parameter of the tweet URL decodes to exactly the share
      text: nothing of the content or the author is lost or altered. */
  lemma TweetTextRecoverable(q: Quote)
    ensures Uri.Decode(TweetUrl(q)[|TweetIntent|..]) == Some(ShareText(q))
  {
    assert TweetUrl(q)[|TweetIntent|..] == Uri.Encode(ShareText(q));
    Uri.DecodeEncode(ShareText(q));
  }

  const PreviewLimit := 120
  const Ellipsis := "..."

  /** The favorites list shows content longer than 120 characters as its
      first 120 characters followed by `...`. */
  function Preview(content: string): (p: string)
    ensures |content| <= PreviewLimit ==> p == content
    ensures |content| > PreviewLimit ==>
      |p| == PreviewLimit + 3 && p[..PreviewLimit] == content[..PreviewLimit] && p[PreviewLimit..] == Ellipsis
    ensures |p| <= PreviewLimit + 3
  {
    if |content| > PreviewLimit then content[..PreviewLimit] + Ellipsis else content
  }
}

=== FILE: results.dfy ===
/** Failure-carrying values shared by the whole model. A JavaScript `throw`
    with an `Error` becomes `Err(message)`; a value that may be absent
    (`null` / `undefined`) becomes an `Option`. */
module Results {

  /** A value that may be absent. */
  datatype Option<+T> = None | Some(value: T)

  /** The outcome of an operation that either yields a value or fails with
      the message of the error it would throw. */
  datatype Result<+T> = Ok(value: T) | Err(message: string)
}

=== FILE: seqs.dfy ===
/** Order-preserving filtering of sequences, the model of JavaScript's
    `Array.prototype.filter`, with the facts both the offline search and the
    favorites list rely on. */
module Seqs {

  /** `a` can be obtained from `b` by deleting elements: the elements of `a`
      appear in `b` in the same relative order. */
  ghost predicate IsSubsequence<T>(a: seq<T>, b: seq<T>)
    decreases |b|
  {
    if |a| == 0 then true
    else if |b| == 0 then false
    else (a[0] == b[0] && IsSubsequence(a[1..], b[1..])) || IsSubsequence(a, b[1..])
  }

  /** The elements of `s` that satisfy `p`, in the order of `s`. The result
      keeps exactly the satisfying elements, each as often as it occurs in
      `s`, and drops every other element. */
  function Filter<T(!new)>(s: seq<T>, p: T -> bool): (r: seq<T>)
    ensures |r| <= |s|
    ensures (exists i :: 0 <= i < |s| && !p(s[i])) ==> |r| < |s|
    ensures forall i :: 0 <= i < |r| ==> p(r[i])
    ensures forall x :: multiset(r)[x] == if p(x) then multiset(s)[x] else 0
    ensures IsSubsequence(r, s)
    decreases |s|
  {
    if |s| == 0 then []
    else
      var rest := Filter(s[1..], p);
      var r := if p(s[0]) then [s[0]] + rest else rest;
      FilterStepLength(s, p, rest, r);
      FilterStepKeeps(s, p, rest, r);
      FilterStepCounts(s, p, rest, r);
      FilterStepSubsequence(s, p, rest, r);
      r
  }

  /** One step of `Filter`, for the length: the head adds at most one
      element, and a dropped element anywhere makes the result shorter. */
  lemma FilterStepLength<T>(s: seq<T>, p: T -> bool, rest: seq<T>, r: seq<T>)
    requires |s| > 0 && r == (if p(s[0]) then [s[0]] + rest else rest)
    requires |rest| <= |s[1..]|
    requires (exists i :: 0 <= i < |s[1..]| && !p(s[1..][i])) ==> |rest| < |s[1..]|
    ensures |r| <= |s|
    ensures (exists i :: 0 <= i < |s| && !p(s[i])) ==> |r| < |s|
  {
    if i :| 0 <= i < |s| && !p(s[i]) {
      if i > 0 {
        assert s[1..][i - 1] == s[i];
      }
    }
  }

  /** One step of `Filter`, for what is kept: every element satisfies `p`. */
  lemma FilterStepKeeps<T>(s: seq<T>, p: T -> bool, rest: seq<T>, r: seq<T>)
    requires |s| > 0 && r == (if p(s[0]) then [s[0]] + rest else rest)
    requires forall i :: 0 <= i < |rest| ==> p(rest[i])
    ensures forall i :: 0 <= i < |r| ==> p(r[i])
  {
    if p(s[0]) {
      assert forall i :: 1 <= i < |r| ==> r[i] == rest[i - 1];
    }
  }

  /** One step of `Filter`, for the counts: if `rest` keeps the satisfying
      elements of the tail, then `r` keeps those of `s`. */
  lemma FilterStepCounts<T(!new)>(s: seq<T>, p: T -> bool, rest: seq<T>, r: seq<T>)
    requires |s| > 0 && r == (if p(s[0]) then [s[0]] + rest else rest)
    requires forall y :: multiset(rest)[y] == if p(y) then multiset(s[1..])[y] else 0
    ensures forall y :: multiset(r)[y] == if p(y) then multiset(s)[y] else 0
  {
    assert s == [s[0]] + s[1..];
    assert multiset(s) == multiset{s[0]} + multiset(s[1..]);
    if p(s[0]) {
      assert multiset(r) == multiset{s[0]} + multiset(rest);
    }
  }

  /** One step of `Filter`, for the order: if `rest` is a subsequence of the
      tail, then `r` is one of `s`. */
  lemma FilterStepSubsequence<T>(s: seq<T>, p: T -> bool, rest: seq<T>, r: seq<T>)
    requires |s| > 0 && r == (if p(s[0]) then [s[0]] + rest else rest)
    requires IsSubsequence(rest, s[1..])
    ensures IsSubsequence(r, s)
  {
    if p(s[0]) {
      assert r[0] == s[0] && r[1..] == rest;
    }
  }

  /** Membership in the filtered sequence: `x` survives exactly when it is
      in `s` and satisfies `p`. */
  lemma FilterMembership<T(!new)>(s: seq<T>, p: T -> bool, x: T)
    ensures x in Filter(s, p) <==> x in s && p(x)
  {
    var r := Filter(s, p);
    assert x in r <==> multiset(r)[x] > 0;
    assert x in s <==> multiset(s)[x] > 0;
  }

  /** When `Filter` keeps nothing, no element satisfies `p`. */
  lemma FilterEmptyMeansNone<T(!new)>(s: seq<T>, p: T -> bool)
    ensures |Filter(s, p)| == 0 ==> forall i :: 0 <= i < |s| ==> !p(s[i])
  {
    if |Filter(s, p)| == 0 {
      forall i | 0 <= i < |s| ensures !p(s[i]) {
        assert multiset(Filter(s, p))[s[i]] == 0;
        assert s[i] in multiset(s);
      }
    }
  }

  /** The first element `Filter` keeps is the earliest element of `s` that
      satisfies `p`. */
  lemma {:induction false} FilterHeadIsFirst<T(!new)>(s: seq<T>, p: T -> bool) returns (k: nat)
    requires |Filter(s, p)| > 0
    ensures k < |s| && Filter(s, p)[0] == s[k] && p(s[k])
    ensures forall j :: 0 <= j < k ==> !p(s[j])
    decreases |s|
  {
    assert |s| > 0;
    if p(s[0]) {
      k := 0;
    } else {
      assert Filter(s, p) == Filter(s[1..], p);
      var k' := FilterHeadIsFirst(s[1..], p);
      k := k' + 1;
      forall j | 0 <= j < k ensures !p(s[j]) {
        if j > 0 { assert s[j] == s[1..][j - 1]; }
      }
    }
  }

  /** Filtering with a predicate every element already satisfies changes
      nothing. */
  lemma {:induction false} FilterAllKept<T(!new)>(s: seq<T>, p: T -> bool)
    requires forall i :: 0 <= i < |s| ==> p(s[i])
    ensures Filter(s, p) == s
    decreases |s|
  {
    if |s| > 0 {
      FilterAllKept(s[1..], p);
    }
  }
}

=== FILE: text.dfy ===
/** String helpers the component relies on: lower-casing for the
    case-insensitive offline search, `String.prototype.includes`, and the
    decimal rendering of an HTTP status code in an error message. */
module Text {

  predicate IsUpper(c: char) {
    'A' <= c <= 'Z'
  }

  /** ASCII lower-casing of one character; every other character is kept. */
  function LowerChar(c: char): char {
    if IsUpper(c) then (c as int + 32) as char else c
  }

  /** `s.toLowerCase()`, restricted to ASCII letters. */
  function Lower(s: string): (r: string)
    ensures |r| == |s|
    ensures forall i :: 0 <= i < |s| ==> r[i] == LowerChar(s[i])
    ensures forall i :: 0 <= i < |r| ==> !IsUpper(r[i])
  {
    seq(|s|, i requires 0 <= i < |s| => LowerChar(s[i]))
  }

  /** Lower-casing twice is lower-casing once. */
  lemma LowerIdempotent(s: string)
    ensures Lower(Lower(s)) == Lower(s)
  {
  }

  /** `sub` occurs in `s` starting at index `i`. */
  predicate OccursAt(s: string, sub: string, i: int) {
    0 <= i && i + |sub| <= |s| && s[i..i + |sub|] == sub
  }

  /** `s.includes(sub)`: some position of `s` starts an occurrence of `sub`.
      The empty string occurs in every string. */
  function Includes(s: string, sub: string): (b: bool)
    ensures b <==> exists i :: OccursAt(s, sub, i)
    decreases |s|
  {
    if |sub| <= |s| && s[..|sub|] == sub then
      assert OccursAt(s, sub, 0);
      true
    else if |s| == 0 then
      false
    else
      var tail := Includes(s[1..], sub);
      assert forall i :: OccursAt(s[1..], sub, i) <==> OccursAt(s, sub, i + 1) by {
        forall i ensures OccursAt(s[1..], sub, i) <==> OccursAt(s, sub, i + 1) {
          if 0 <= i && i + |sub| <= |s[1..]| {
            assert s[1..][i..i + |sub|] == s[i + 1..i + 1 + |sub|];
          }
        }
      }
      assert !OccursAt(s, sub, 0);
      assert tail ==> exists i :: OccursAt(s, sub, i) by {
        if tail {
          var i :| OccursAt(s[1..], sub, i);
          assert OccursAt(s, sub, i + 1);
        }
      }
      assert (exists i :: OccursAt(s, sub, i)) ==> tail by {
        if exists i :: OccursAt(s, sub, i) {
          var i :| OccursAt(s, sub, i);
          assert i != 0;
          assert OccursAt(s[1..], sub, i - 1);
        }
      }
      tail
  }

  /** The decimal digit character for `d`. */
  function DigitChar(d: nat): char
    requires d < 10
  {
    ('0' as int + d) as char
  }

  predicate IsDigit(c: char) {
    '0' <= c <= '9'
  }

  /** The decimal rendering of `n`, as a template literal shows a number:
      at least one digit, no sign, no leading zero. */
  function Decimal(n: nat): (s: string)
    ensures |s| > 0
    ensures forall i :: 0 <= i < |s| ==> IsDigit(s[i])
    ensures |s| > 1 ==> s[0] != '0'
    decreases n
  {
    if n < 10 then [DigitChar(n)] else Decimal(n / 10) + [DigitChar(n % 10)]
  }

  /** The number a string of decimal digits denotes. */
  function DecimalValue(s: string): nat
    requires forall i :: 0 <= i < |s| ==> IsDigit(s[i])
    decreases |s|
  {
    if |s| == 0 then 0
    else
      assert IsDigit(s[|s| - 1]);
      DecimalValue(s[..|s| - 1]) * 10 + (s[|s| - 1] as int - '0' as int)
  }

  /** Reading back the decimal rendering gives the number: the rendering
      loses nothing. */
  lemma {:induction false} DecimalRoundTrip(n: nat)
    ensures DecimalValue(Decimal(n)) == n
    decreases n
  {
    if n >= 10 {
      DecimalRoundTrip(n / 10);
      var s := Decimal(n);
      assert s[..|s| - 1] == Decimal(n / 10);
    }
  }
}

=== FILE: uri.dfy ===
/** `encodeURIComponent` as the ECMAScript standard defines it (section
    19.2.6.5 of ECMA-262): characters of the unreserved set are kept, every
    other character is written as the UTF-8 bytes of its code point, each
    byte as `%` followed by two upper-case hexadecimal digits.

    A reference decoder reads such text back; the round trip
    `Decode(Encode(s)) == Some(s)` shows that the encoding loses nothing, so
    the tag, the search query, the proxied URL and the tweet text the
    component embeds in URLs can all be recovered from them. */
module Uri {
  import opened Results

  /** The characters `encodeURIComponent` leaves unescaped. */
  predicate Unreserved(c: char) {
    || ('A' <= c <= 'Z') || ('a' <= c <= 'z') || ('0' <= c <= '9')
    || c == '-' || c == '_' || c == '.' || c == '!' || c == '~'
    || c == '*' || c == '\'' || c == '(' || c == ')'
  }

  predicate IsUpperHex(c: char) {
    ('0' <= c <= '9') || ('A' <= c <= 'F')
  }

  /** The characters an encoded component can consist of. */
  predicate EncodedAlphabet(c: char) {
    Unreserved(c) || c == '%' || IsUpperHex(c)
  }

  function HexDigit(n: nat): (c: char)
    requires n < 16
    ensures IsUpperHex(c)
  {
    if n < 10 then ('0' as int + n) as char else ('A' as int + n - 10) as char
  }

  /** The value of a hexadecimal digit in either case. */
  function HexValue(c: char): Option<nat> {
    if '0' <= c <= '9' then Some(c as int - '0' as int)
    else if 'A' <= c <= 'F' then Some(c as int - 'A' as int + 10)
    else if 'a' <= c <= 'f' then Some(c as int - 'a' as int + 10)
    else None
  }

  lemma HexRoundTrip(n: nat)
    requires n < 16
    ensures HexValue(HexDigit(n)) == Some(n)
  {
  }

  predicate IsByte(b: nat) {
    b < 256
  }

  /** A Unicode scalar value: what a `char` holds. */
  predicate IsScalar(cp: int) {
    (0 <= cp < 0xD800) || (0xE000 <= cp < 0x11_0000)
  }

  /** The UTF-8 encoding of a code point (section 3 of RFC 3629). */
  function Utf8(cp: nat): (bytes: seq<nat>)
    requires cp < 0x11_0000
    ensures 1 <= |bytes| <= 4
    ensures forall i :: 0 <= i < |bytes| ==> IsByte(bytes[i])
  {
    if cp < 0x80 then [cp]
    else if cp < 0x800 then [0xC0 + cp / 64, 0x80 + cp % 64]
    else if cp < 0x1_0000 then [0xE0 + cp / 4096, 0x80 + (cp / 64) % 64, 0x80 + cp % 64]
    else [0xF0 + cp / 262144, 0x80 + (cp / 4096) % 64, 0x80 + (cp / 64) % 64, 0x80 + cp % 64]
  }

  /** One byte as `%XY`. */
  function PercentByte(b: nat): string
    requires IsByte(b)
  {
    ['%', HexDigit(b / 16), HexDigit(b % 16)]
  }

  /** Bytes as a run of `%XY` groups. */
  function PercentBytes(bytes: seq<nat>): (s: string)
    requires forall i :: 0 <= i < |bytes| ==> IsByte(bytes[i])
    ensures |s| == 3 * |bytes|
    ensures forall i :: 0 <= i < |s| ==> s[i] == '%' || IsUpperHex(s[i])
    decreases |bytes|
  {
    if |bytes| == 0 then [] else PercentByte(bytes[0]) + PercentBytes(bytes[1..])
  }

  function EncodeChar(c: char): string {
    if Unreserved(c) then [c] else PercentBytes(Utf8(c as int))
  }

  /** `encodeURIComponent(s)`. */
  function Encode(s: string): (e: string)
    ensures forall i :: 0 <= i < |e| ==> EncodedAlphabet(e[i])
    ensures |e| >= |s|
    decreases |s|
  {
    if |s| == 0 then []
    else
      var head := EncodeChar(s[0]);
      assert forall i :: 0 <= i < |head| ==> EncodedAlphabet(head[i]);
      head + Encode(s[1..])
  }

  /** A string made only of unreserved characters is its own encoding. */
  lemma {:induction false} EncodeKeepsUnreserved(s: string)
    requires forall i :: 0 <= i < |s| ==> Unreserved(s[i])
    ensures Encode(s) == s
    decreases |s|
  {
    if |s| > 0 {
      EncodeKeepsUnreserved(s[1..]);
    }
  }

  // ---------------------------------------------------------------------
  // Reference decoder

  /** The byte written as `%XY` at the `k`-th three-character group of `s`. */
  function ByteAt(s: string, k: nat): Option<nat> {
    if 3 * k + 3 <= |s| && s[3 * k] == '%' then
      match (HexValue(s[3 * k + 1]), HexValue(s[3 * k + 2]))
      case (Some(h), Some(l)) => Some(h * 16 + l)
      case _ => None
    else None
  }

  /** The payload (low six bits) of a UTF-8 continuation byte at group `k`. */
  function ContinuationAt(s: string, k: nat): Option<nat> {
    match ByteAt(s, k)
    case Some(b) => if 0x80 <= b < 0xC0 then Some(b - 0x80) else None
    case None => None
  }

  function ScalarChar(cp: int, width: nat): Option<(char, nat)> {
    if IsScalar(cp) then Some((cp as char, width)) else None
  }

  /** The character a run of `%XY` groups at the start of `s` encodes,
      together with the number of characters it occupies. Overlong forms,
      surrogates and values beyond U+10FFFF are refused. */
  function DecodeSequence(s: string): (r: Option<(char, nat)>)
    ensures r.Some? ==> 3 <= r.value.1 <= |s|
  {
    match ByteAt(s, 0)
    case None => None
    case Some(b0) =>
      if b0 < 0x80 then ScalarChar(b0, 3)
      else if 0xC0 <= b0 < 0xE0 then
        match ContinuationAt(s, 1)
        case None => None
        case Some(x1) =>
          var cp := (b0 - 0xC0) * 64 + x1;
          if cp < 0x80 then None else ScalarChar(cp, 6)
      else if 0xE0 <= b0 < 0xF0 then
        match (ContinuationAt(s, 1), ContinuationAt(s, 2))
        case (Some(x1), Some(x2)) =>
          var cp := (b0 - 0xE0) * 4096 + x1 * 64 + x2;
          if cp < 0x800 then None else ScalarChar(cp, 9)
        case _ => None
      else if 0xF0 <= b0 < 0xF8 then
        match (ContinuationAt(s, 1), ContinuationAt(s, 2), ContinuationAt(s, 3))
        case (Some(x1), Some(x2), Some(x3)) =>
          var cp := (b0 - 0xF0) * 262144 + x1 * 4096 + x2 * 64 + x3;
          if cp < 0x1_0000 then None else ScalarChar(cp, 12)
        case _ => None
      else None
  }

  /** `decodeURIComponent(s)`, with `None` where it would throw `URIError`. */
  function Decode(s: string): Option<string>
    decreases |s|
  {
    if |s| == 0 then Some([])
    else if s[0] != '%' then Prepend(s[0], Decode(s[1..]))
    else
      match DecodeSequence(s)
      case None => None
      case Some((c, width)) => Prepend(c, Decode(s[width..]))
  }

  function Prepend(c: char, rest: Option<string>): Option<string> {
    match rest
    case Some(t) => Some([c] + t)
    case None => None
  }

  // ---------------------------------------------------------------------
  // Round trip

  lemma PercentByteRoundTrip(b: nat)
    requires IsByte(b)
    ensures HexValue(HexDigit(b / 16)) == Some(b / 16)
    ensures HexValue(HexDigit(b % 16)) == Some(b % 16)
    ensures (b / 16) * 16 + b % 16 == b
  {
    HexRoundTrip(b / 16);
    HexRoundTrip(b % 16);
  }

  /** Groups are read three characters at a time. */
  lemma ByteAtShift(s: string, k: nat)
    requires |s| >= 3
    ensures ByteAt(s, k + 1) == ByteAt(s[3..], k)
  {
    if 3 * (k + 1) + 3 <= |s| {
      assert s[3 * (k + 1)] == s[3..][3 * k];
      assert s[3 * (k + 1) + 1] == s[3..][3 * k + 1];
      assert s[3 * (k + 1) + 2] == s[3..][3 * k + 2];
    }
  }

  /** Reading the `k`-th group of an encoded byte run gives back that byte,
      whatever follows the run. */
  lemma {:induction false} ByteAtPercentBytes(bytes: seq<nat>, rest: string, k: nat)
    requires forall i :: 0 <= i < |bytes| ==> IsByte(bytes[i])
    requires k < |bytes|
    ensures ByteAt(PercentBytes(bytes) + rest, k) == Some(bytes[k])
    decreases k
  {
    var head := PercentByte(bytes[0]);
    var tail := PercentBytes(bytes[1..]) + rest;
    var s := PercentBytes(bytes) + rest;
    assert PercentBytes(bytes) == head + PercentBytes(bytes[1..]);
    assert s == head + tail;
    if k == 0 {
      assert s[0] == '%' && s[1] == head[1] && s[2] == head[2];
      PercentByteRoundTrip(bytes[0]);
    } else {
      ByteAtShift(s, k - 1);
      assert s[3..] == tail;
      ByteAtPercentBytes(bytes[1..], rest, k - 1);
    }
  }

  /** The arithmetic that makes UTF-8 decoding invert `Utf8`. */
  lemma Utf8Arithmetic(cp: nat)
    ensures (cp / 64) * 64 + cp % 64 == cp
    ensures (cp / 4096) * 4096 + ((cp / 64) % 64) * 64 + cp % 64 == cp
    ensures (cp / 262144) * 262144 + ((cp / 4096) % 64) * 4096 + ((cp / 64) % 64) * 64 + cp % 64 == cp
  {
    var a := cp / 64;
    assert a / 64 == cp / 4096;
    assert a * 64 + cp % 64 == cp;
    assert (a / 64) * 64 + a % 64 == a;
    var b := a / 64;
    assert b / 64 == cp / 262144;
    assert (b / 64) * 64 + b % 64 == b;
    assert (cp / 4096) % 64 == b % 64;
  }

  lemma DecodeOneByte(cp: nat, rest: string)
    requires cp < 0x80
    ensures DecodeSequence(PercentBytes(Utf8(cp)) + rest) == Some((cp as char, 3))
  {
    ByteAtPercentBytes(Utf8(cp), rest, 0);
  }

  lemma DecodeTwoGroups(s: string, cp: nat)
    requires 0x80 <= cp < 0x800
    requires ByteAt(s, 0) == Some(0xC0 + cp / 64)
    requires ByteAt(s, 1) == Some(0x80 + cp % 64)
    ensures DecodeSequence(s) == Some((cp as char, 6))
  {
    Utf8Arithmetic(cp);
    assert ContinuationAt(s, 1) == Some(cp % 64);
  }

  lemma DecodeTwoBytes(cp: nat, rest: string)
    requires 0x80 <= cp < 0x800
    ensures DecodeSequence(PercentBytes(Utf8(cp)) + rest) == Some((cp as char, 6))
  {
    ByteAtPercentBytes(Utf8(cp), rest, 0);
    ByteAtPercentBytes(Utf8(cp), rest, 1);
    DecodeTwoGroups(PercentBytes(Utf8(cp)) + rest, cp);
  }

  lemma DecodeThreeGroups(s: string, cp: nat)
    requires 0x800 <= cp < 0x1_0000 && IsScalar(cp)
    requires ByteAt(s, 0) == Some(0xE0 + cp / 4096)
    requires ByteAt(s, 1) == Some(0x80 + (cp / 64) % 64)
    requires ByteAt(s, 2) == Some(0x80 + cp % 64)
    ensures DecodeSequence(s) == Some((cp as char, 9))
  {
    Utf8Arithmetic(cp);
    assert ContinuationAt(s, 1) == Some((cp / 64) % 64);
    assert ContinuationAt(s, 2) == Some(cp % 64);
    assert (0xE0 + cp / 4096) - 0xE0 == cp / 4096;
  }

  lemma DecodeThreeBytes(cp: nat, rest: string)
    requires 0x800 <= cp < 0x1_0000 && IsScalar(cp)
    ensures DecodeSequence(PercentBytes(Utf8(cp)) + rest) == Some((cp as char, 9))
  {
    ByteAtPercentBytes(Utf8(cp), rest, 0);
    ByteAtPercentBytes(Utf8(cp), rest, 1);
    ByteAtPercentBytes(Utf8(cp), rest, 2);
    DecodeThreeGroups(PercentBytes(Utf8(cp)) + rest, cp);
  }

  lemma DecodeFourGroups(s: string, cp: nat)
    requires 0x1_0000 <= cp < 0x11_0000
    requires ByteAt(s, 0) == Some(0xF0 + cp / 262144)
    requires ByteAt(s, 1) == Some(0x80 + (cp / 4096) % 64)
    requires ByteAt(s, 2) == Some(0x80 + (cp / 64) % 64)
    requires ByteAt(s, 3) == Some(0x80 + cp % 64)
    ensures DecodeSequence(s) == Some((cp as char, 12))
  {
    Utf8Arithmetic(cp);
    assert ContinuationAt(s, 1) == Some((cp / 4096) % 64);
    assert ContinuationAt(s, 2) == Some((cp / 64) % 64);
    assert ContinuationAt(s, 3) == Some(cp % 64);
    assert cp / 262144 < 8;
  }

  lemma DecodeFourBytes(cp: nat, rest: string)
    requires 0x1_0000 <= cp < 0x11_0000
    ensures DecodeSequence(PercentBytes(Utf8(cp)) + rest) == Some((cp as char, 12))
  {
    ByteAtPercentBytes(Utf8(cp), rest, 0);
    ByteAtPercentBytes(Utf8(cp), rest, 1);
    ByteAtPercentBytes(Utf8(cp), rest, 2);
    ByteAtPercentBytes(Utf8(cp), rest, 3);
    DecodeFourGroups(PercentBytes(Utf8(cp)) + rest, cp);
  }

  /** The decoder reads one encoded non-unreserved character back, and
      consumes exactly its encoding. */
  lemma DecodeSequenceOfChar(c: char, rest: string)
    requires !Unreserved(c)
    ensures DecodeSequence(EncodeChar(c) + rest) == Some((c, |EncodeChar(c)|))
  {
    var cp := c as int;
    assert EncodeChar(c) == PercentBytes(Utf8(cp));
    if cp < 0x80 {
      DecodeOneByte(cp, rest);
    } else if cp < 0x800 {
      DecodeTwoBytes(cp, rest);
    } else if cp < 0x1_0000 {
      DecodeThreeBytes(cp, rest);
    } else {
      DecodeFourBytes(cp, rest);
    }
  }

  /** Decoding an encoded character followed by anything decodes the
      character, then the rest. */
  lemma DecodeEncodeChar(c: char, rest: string)
    ensures Decode(EncodeChar(c) + rest) == Prepend(c, Decode(rest))
  {
    var s := EncodeChar(c) + rest;
    if Unreserved(c) {
      assert s[0] == c && s[1..] == rest;
    } else {
      DecodeSequenceOfChar(c, rest);
      var p := PercentBytes(Utf8(c as int));
      assert s[0] == p[0] == '%';
      assert s[|EncodeChar(c)|..] == rest;
    }
  }

  /** `decodeURIComponent(encodeURIComponent(s)) == s`. */
  lemma {:induction false} DecodeEncode(s: string)
    ensures Decode(Encode(s)) == Some(s)
    decreases |s|
  {
    if |s| > 0 {
      DecodeEncode(s[1..]);
      DecodeEncodeChar(s[0], Encode(s[1..]));
      assert [s[0]] + s[1..] == s;
    }
  }

  /** Different strings have different encodings. */
  lemma EncodeInjective(a: string, b: string)
    requires Encode(a) == Encode(b)
    ensures a == b
  {
    DecodeEncode(a);
    DecodeEncode(b);
  }
}
